=== FILE: README.md ===
# go-common core, modelled in Dafny

This project models three pieces of the `go-common` Go library:

- **hash** is the value fingerprinting engine. `Values(objects...)` writes each argument, in argument order, into a streaming xxhash digest. Each argument is written as a canonical byte string:
  - nil, and nil `*string`, `*int`, `*int8`, `*int16`, `*int32`, `*int64`, `*float32`, `*float64` and `*bool` pointers, write nothing; a nil pointer of any other type goes to the reflection fallback;
  - strings and `[]byte` write their bytes;
  - `[]string` writes its elements back to back;
  - bools write `true` or `false`;
  - signed integers write their decimal text;
  - non-nil `*string`, integer, float and `*bool` pointers write what they point to; other pointers go to the reflection fallback;
  - everything else writes its JSON or `%v` rendering.

  The 64-bit sum is rendered with `%016x`. `Sum64` reads such a string back with `strconv.ParseUint(s, 16, 64)` and ignores the error.
- **datetime** is the epoch arithmetic over `time.Time` and millisecond epochs. It covers:
  - `TimeToEpoch`, `DateFromEpoch` and `ToMilliSec`;
  - the day bounds `StartofDay` and `EndofDay`;
  - the ranges `DateRange` and `DateRangePrevious`;
  - `GetTimeUnitString`, `GetSignalDate` and `EpochMinuteApart`.
- **kafka** is `NewConfigMap`. It builds the broker client's configuration map from a `Config`:
  1. nine defaults;
  2. the auto-commit and SASL overrides, written in place with `SetKey`;
  3. every `Extra` entry.

Modules:

- `GoInt` writes out Go's fixed-width integers. It covers int64 wrap-around (`Wrap64`) and division that truncates toward zero (`Quo`).
- `Decimal` is `%d` formatting.
- `Hex` is `%016x` rendering and `ParseUint` in base 16. It has a loop-free characterisation of `ParseUint`, `ParseSpec`, which is proved equal to the digit loop.
- `Hash`, `Datetime` and `Kafka` are the three packages.

The xxhash function itself is a parameter, `sum64`: the map from the bytes written to the final sum. Every fingerprint property holds for every such function.

The streaming digest is the class `Hash.Digest`. Its state is the bytes written so far. `HashValues` and `WriteArg` are methods over it, proved against the specification functions `Encode`, `Stream` and `Fingerprint`.

`NewConfigMap` is a method over the class `Kafka.ConfigMap`. It is proved against the function `Kafka.ConfigFor`.

A `time.Time` is the instant it denotes, in nanoseconds since 1970-01-01 UTC. Where Go's int64 arithmetic wraps, the model wraps too, explicitly.

The model follows the code where it does more than its Go doc comments say:

- `Sum64` ("the int value of the hashed value", hash/hash.go:21) returns 2^64 - 1, not 0, once the hex digits read so far exceed 2^64 - 1. `ParseUint` returns the maximum value together with its range error.
- `TimeToEpoch` ("epoch (in UTC) with millisecond precision", datetime/time.go:132) adds 500 000 ns in wrapping int64 arithmetic and then divides with truncation toward zero. From -500 000 ns on, it gives the nearest millisecond with halves rounded up. Below -500 000 ns it gives the millisecond in [t + 0.5 ms, t + 1.5 ms): one more than the nearest millisecond, except at exact halves. `StartofDay` of a pre-1970 epoch, down to about -9.2e12 ms (year 1678) where DateFromEpoch's product wraps, is therefore one millisecond after midnight. Within 500 000 ns of the largest int64 the addition wraps and the result is negative.
- `EpochMinuteApart` ("less than or equal to one minute apart", datetime/time.go:375-376) subtracts in wrapping int64 arithmetic. Epochs more than 2^63 - 1 ms apart are always reported as a minute apart.

## Model

| member | source | states |
|---|---|---|
| Hash.Fingerprint | hash/hash.go:155 | the fingerprint is 16 lower-case hex digits whose value is the digest's sum of everything written |
| Hash.Digest.constructor | hash/hash.go:33 | a new digest has had nothing written to it |
| Hash.Digest.Write | hash/hash.go:39-50 | writing appends exactly the given bytes to what the digest has absorbed |
| Hash.WriteArg | hash/hash.go:38-152 | one pass of the type switch appends exactly the argument's canonical encoding, and nothing else |
| Hash.HashValues | hash/hash.go:32-156 | the loop over the arguments writes their encodings in order; the result is the fingerprint of the whole list |
| Hash.Values | hash/hash.go:17-19 | for arguments a Go value can be (every integer within its width), Values returns the fingerprint of its arguments, 16 characters long |
| Hash.Sum64 | hash/hash.go:22-25 | Sum64 is ParseUint's value in base 16, as characterised by `ParseSpec`; the empty string gives 0 |
| Hash.Encode | hash/hash.go:38-152 | the bytes each switch case writes; its promises are stated by `WriteArg`, `EncodeBool`, `EncodeIntegerInjective` and the `Fingerprint*Transparent`, `FingerprintNoSeparator` and `FingerprintSpreadsStrings` lemmas |
| Hash.StreamAppend | hash/hash.go:37-153 | the bytes written for a list in two parts are the first part's bytes followed by the second's |
| Hash.StreamInOrder | hash/hash.go:37-153 | the first argument's bytes come first, then the rest's |
| Hash.StreamOrderMatters | hash/hash.go:37 | "x" then "y" writes different bytes from "y" then "x" |
| Hash.StreamSubstitute | hash/hash.go:37-153 | an argument can be replaced by any other with the same encoding without changing the bytes written |
| Hash.StreamDropsEmpty | hash/hash.go:37-153 | an argument that encodes to nothing can be dropped without changing the bytes written |
| Hash.FingerprintOfStream | hash/hash.go:155 | two argument lists that write the same bytes have the same fingerprint |
| Hash.FingerprintNilTransparent | hash/hash.go:38-136 | nil, "", and a nil *string, nil integer pointer or nil *bool anywhere in the list leave the fingerprint unchanged |
| Hash.FingerprintStrPtrTransparent | hash/hash.go:73-78 | a non-nil *string fingerprints exactly like the string it points to |
| Hash.FingerprintIntegerPtrTransparent | hash/hash.go:79-108 | a non-nil pointer to an integer of any width fingerprints exactly like that integer |
| Hash.FingerprintBoolPtrTransparent | hash/hash.go:131-136 | a non-nil *bool, written with %v, fingerprints exactly like the bool |
| Hash.FingerprintWidthAndBytesTransparent | hash/hash.go:43-58 | the integer width does not matter, and a []byte fingerprints like the string of the same bytes |
| Hash.StreamNoSeparator | hash/hash.go:43-44 | two adjacent strings write the same bytes as their concatenation |
| Hash.FingerprintNoSeparator | hash/hash.go:43-44 | ["ab", "c"] fingerprints like ["abc"], anywhere in the list |
| Hash.StreamOfStrArgs | hash/hash.go:47-50 | a []string writes its elements back to back, as the elements passed one by one would |
| Hash.FingerprintSpreadsStrings | hash/hash.go:47-50 | a []string fingerprints like its elements passed as separate string arguments |
| Hash.EncodeBool | hash/hash.go:51-56 | bool and non-nil *bool write the same text, and true and false write different text |
| Hash.EncodeIntegerInjective | hash/hash.go:57-58 | distinct integers write distinct decimal text |
| Hash.Sum64RoundTrip | hash/hash.go:22-25 | Sum64 of the %016x rendering of any uint64 is that uint64 |
| Hash.Sum64OfFingerprint | hash/hash.go:22-25 | parsing a fingerprint gives back the digest's sum it was rendered from |
| Hash.Sum64Valid | hash/hash.go:22-25 | hex text, in either letter case and with any leading zeros, whose value fits in 64 bits parses to that value |
| Hash.Sum64Malformed | hash/hash.go:22-25 | a non-hex byte among the first 16 makes Sum64 fail soft to 0 |
| Hash.Sum64Saturates | hash/hash.go:22-25 | once the digits read exceed 2^64 - 1, Sum64 is 2^64 - 1 whatever follows |
| Hex.ToHex16 | hash/hash.go:155 | %016x gives 16 lower-case hex digits whose value is the number rendered |
| Hex.ParseUintMatchesSpec | hash/hash.go:23 | the digit loop of ParseUint, with its two overflow checks and early returns, computes `ParseSpec` |
| Hex.ScanMeaning | hash/hash.go:23 | the digit loop, from any point reached without overflow, ends at `ParseSpec` |
| Decimal.DecimalText | hash/hash.go:58 | %d writes a minus sign exactly for negatives, then digits without leading zeros, denoting the magnitude |
| Decimal.DecimalTextInjective | hash/hash.go:58 | distinct integers have distinct %d text |
| GoInt.Wrap64 | datetime/time.go:140 | the int64 result differs from the exact result by a multiple of 2^64, and equals it when it fits |
| GoInt.Quo | datetime/time.go:140 | Go's integer division truncates toward zero: the remainder takes the sign of the dividend |
| Datetime.GetTimeUnitString | datetime/time.go:40-72 | the name is "alltime" exactly for the units without a name of their own |
| Datetime.GetTimeUnitStringInjective | datetime/time.go:40-72 | distinct named units have distinct names |
| Datetime.TimeToEpoch | datetime/time.go:133-141 | 0 for the zero time; from -500 000 ns up to 500 000 ns below the largest int64, the nearest millisecond with halves up; below -500 000 ns, the millisecond in [t + 0.5 ms, t + 1.5 ms); negative where the addition wraps |
| Datetime.ToMilliSecRoundTrip | datetime/time.go:292-294 | ToMilliSec undoes DateFromEpoch wherever the nanoseconds fit in an int64 |
| Datetime.TimeToEpochRoundTrip | datetime/time.go:133-151 | TimeToEpoch undoes DateFromEpoch for epochs from 1970 up to about 9.22e12 ms (year 2262), beyond which DateFromEpoch's product or the + 500000 wraps |
| Datetime.TimeToEpochBefore1970 | datetime/time.go:133-151 | before 1970, down to about -9.22e12 ms (year 1677) where DateFromEpoch's product wraps, TimeToEpoch of DateFromEpoch(t) is t + 1 |
| Datetime.DayBounds | datetime/time.go:195-205 | for epochs within ±9.2e12 ms (about years 1678 to 2261), beyond which DateFromEpoch's product wraps: StartofDay is the day's midnight (plus 1 ms before 1970); EndofDay is 86 399 000 ms after it |
| Datetime.DayBoundsOf | datetime/time.go:195-205 | for an epoch r ms into day k, within ±9.2e12 ms (about years 1678 to 2261), beyond which DateFromEpoch's product wraps: both day bounds as exact multiples of a day |
| Datetime.StartofDayIsMidnight | datetime/time.go:201-205 | for epochs from 1970 up to 9.2e12 ms (about year 2261), beyond which DateFromEpoch's product wraps: StartofDay is a multiple of a day, at most a day before the epoch |
| Datetime.EndofDayIsLastSecond | datetime/time.go:195-199 | for epochs from 1970 up to 9.2e12 ms (about year 2261), beyond which DateFromEpoch's product wraps: EndofDay is the day's last whole second, as the 9999 ns round away |
| Datetime.StartofDayBefore1970 | datetime/time.go:201-205 | for epochs before 1970 down to -9.2e12 ms (about year 1678), beyond which DateFromEpoch's product wraps: StartofDay is one millisecond after midnight |
| Datetime.DateFromEpoch | datetime/time.go:149-151 | time.Unix(0, t * 1000000) with the product wrapping in int64; its promises are stated by `ToMilliSecRoundTrip`, `TimeToEpochRoundTrip` and `TimeToEpochBefore1970` |
| Datetime.ToMilliSec | datetime/time.go:292-294 | UnixNano divided by 1000000, truncating toward zero; its promise is stated by `ToMilliSecRoundTrip` |
| Datetime.StartofDay | datetime/time.go:201-205 | midnight of the epoch's UTC day through TimeToEpoch; its promises are stated by `DayBounds`, `DayBoundsOf`, `StartofDayIsMidnight` and `StartofDayBefore1970` |
| Datetime.EndofDay | datetime/time.go:195-199 | 23:59:59.000009999 of the epoch's UTC day through TimeToEpoch; its promises are stated by `DayBounds`, `DayBoundsOf` and `EndofDayIsLastSecond` |
| Datetime.DateRange | datetime/time.go:176-185 | the start and end of the `timeunit` days up to the reference day; its promises are stated by `DateRangeAllTime`, `RangeStartOfDay` and `DateRangeWindow` |
| Datetime.DateRangePrevious | datetime/time.go:187-193 | the range of the same unit ending `timeunit` days earlier; its promise is stated by `DateRangePreviousWindow` |
| Datetime.DateRangeAllTime | datetime/time.go:178-185 | unit -1 (all time) starts the range at epoch 0 |
| Datetime.RangeBeginNoWrap | datetime/time.go:180 | while nothing overflows, the wrapping arithmetic for the range's first day is exact |
| Datetime.RangeStartOfDay | datetime/time.go:180-184 | a range of u days ending on day k starts at midnight of day k - u + 1 |
| Datetime.DateRangeWindow | datetime/time.go:176-185 | the range ends at the last second of the reference day and starts u - 1 days before its midnight; a range of 0 days starts after it ends |
| Datetime.PreviousEndNoWrap | datetime/time.go:190 | while nothing overflows, the previous range's reference is exactly u days before the current end |
| Datetime.DateRangePreviousWindow | datetime/time.go:187-193 | the previous range of u days is u days earlier and ends one second before the current range begins |
| Datetime.GetSignalDate | datetime/time.go:217-249 | a named unit gives the short date that many days before the reference; any other unit gives "" |
| Datetime.EpochMinuteApart | datetime/time.go:377-387 | whenever the distance fits in an int64, true exactly when the epochs are at most 60 000 ms apart; when it does not, the wrapped subtraction makes it always true |
| Datetime.EpochMinuteApartSymmetric | datetime/time.go:377-387 | the order of the two epochs does not matter |
| Kafka.KeyOf | kafka/kakfa.go:37-55 | every key string has a canonical key that stands for it |
| Kafka.KeyOfName | kafka/kakfa.go:37-55 | canonical keys and key strings correspond one to one |
| Kafka.CanonicalNameInjective | kafka/kakfa.go:57-61 | two canonical keys with the same string are the same key, so one Go key is one map entry |
| Kafka.ExtraOf | kafka/kakfa.go:57-61 | Go's string-keyed Extra, re-keyed canonically: every string key has its entry, with the same value, and no other entries |
| Kafka.AbsentFromExtra | kafka/kakfa.go:57-61 | with canonical Extra keys, a setting is missing from Extra exactly when no Extra key has its name |
| Kafka.SplitJoin | kafka/kakfa.go:41 | splitting the bootstrap.servers value on commas gives the brokers back, when there is at least one broker and none contains a comma |
| Kafka.ConfigMap.constructor | kafka/kakfa.go:36-46 | the map starts as exactly the given literal |
| Kafka.ConfigMap.SetKey | kafka/kakfa.go:47-61 | SetKey stores the value under the key, replacing any earlier value, and changes nothing else |
| Kafka.RestrictStep | kafka/kakfa.go:57-61 | one more Extra entry written extends the part of Extra already applied by that key |
| Kafka.ConfigMap.SetEntries | kafka/kakfa.go:57-61 | the Extra loop, in whatever order the map yields its keys, leaves the map overwritten by every Extra entry |
| Kafka.NewConfigMap | kafka/kakfa.go:31-63 | for Extra keys in canonical form, a fresh map equal to the defaults, then the overrides that apply, then Extra |
| Kafka.ClientIdOrDefault | kafka/kakfa.go:32-35 | client.id is the configured ClientID, or "pinpt/go-common" when that is empty |
| Kafka.BootstrapServersJoined | kafka/kakfa.go:41 | bootstrap.servers is the brokers joined with commas |
| Kafka.DefaultsKeys | kafka/kakfa.go:36-46 | the literal holds exactly the nine default keys |
| Kafka.AutoCommitOffKeeps | kafka/kakfa.go:47-50 | switching auto-commit off touches only its two keys |
| Kafka.WithCredentialsKeeps | kafka/kakfa.go:51-56 | adding credentials touches only the four SASL keys |
| Kafka.KeepsDefault | kafka/kakfa.go:36-61 | a key that no override and no Extra entry writes keeps its default, or stays absent |
| Kafka.FixedDefaults | kafka/kakfa.go:37-45 | the request timeout, retry backoff, version request, message size, session timeout and heartbeat have their default values unless Extra sets them |
| Kafka.AutoCommit | kafka/kakfa.go:47-50 | enable.auto.commit is present, as "false", exactly when DisableAutoCommit; enable.auto.offset.store is its negation |
| Kafka.Credentials | kafka/kakfa.go:51-56 | the four SASL settings are all present, with PLAIN, SASL_SSL and the credentials, exactly when the username is non-empty, and all absent otherwise |
| Kafka.ExtraWins | kafka/kakfa.go:57-61 | every Extra entry ends up in the map with its own value, over any default or override |
| Kafka.OverriddenKeys | kafka/kakfa.go:36-56 | after the overrides, the keys are the defaults plus enable.auto.commit and the SASL keys when they apply |
| Kafka.ConfigKeys | kafka/kakfa.go:36-61 | the final key set is exactly the defaults, the overrides that apply and the Extra keys |

## Left out

- The xxhash algorithm is not modelled. It is the parameter `sum64`, and every fingerprint property is proved for every such function.
- The float32, float64, *float32 and *float64 cases of the type switch (hash/hash.go:59-72 and 109-130) are not modelled, because Dafny has no IEEE floats here. Neither are their `%f` renderings.
- The reflection fallback (hash/hash.go:137-151) is modelled only as `Composite`, carrying the bytes that `json.Marshal` or `%v` produce. The encoding itself is not modelled.
- `Modulo` (hash/hash.go:27-30) is not modelled, because it works through float64 `math.Mod`.
- The Go type switch becomes a closed datatype `Arg`. An argument's Go type is its constructor. Go's `int` is taken to be 64 bits wide.
- The datetime functions that format, parse or read the clock are not modelled: ISODate*, ShortDate*, ISODateToEpoch, EpochNow, AddDaysToStrDate, NewDate*, TimeFromDate and ConvertToModel. Neither are the RFC 3339 layouts. `GetSignalDate` takes the date formatting as a parameter.
- `GetSignalTime` and `ToTimeRange` are not modelled, because both are time.Time truncation and AddDate compositions outside the epoch core.
- `time.Time` locations are not modelled: every time is UTC, where a calendar day is exactly 86 400 000 ms. Nor is the monotonic clock reading.
- Datetime.DateRangeWindow: stated only for epochs from 1970 up to 9.1e12 ms (about year 2258), and for units of at most the days since 1970. Outside that range the int64 products and sums wrap. The functions model the wrap-around, but no lemma describes the result there.
- Datetime.DateRangePreviousWindow: stated on the same range, for units of at least one day.
- The confluent client is not modelled. `ConfigMap.SetKey`'s redirection of keys of the form `{topic}.name` into a nested map is left out, so every key is stored at the top level.
- `Config.Extra` is a Go `map[string]interface{}`. The model keys it by `Key`, and `NewConfigMap` and the lemmas about its result require every Extra key in canonical form (`CanonicalExtra`): an Extra key spelled like a setting is that setting's key. `ExtraOf` turns a string-keyed map into such a map. Extra values are `ConfigValue`s. Any value other than an int, bool or string is an opaque `OtherValue`.
- The `Offset` and `ResetOffset` fields, and the two ShouldProcess callbacks of `Config`, are not read by `NewConfigMap`. They are carried or left out accordingly.
- The order in which Go ranges over `Extra` is not modelled. `SetEntries` picks the keys in an arbitrary order, and its result is proved the same for every order.

=== FILE: datetime.dfy ===
/**
 * Epoch arithmetic of the datetime package, over integer milliseconds and
 * nanoseconds. A `time.Time` is the instant it denotes; its location is not
 * modelled, so every time is read in UTC, where a day is exactly
 * 86 400 000 ms (Go's time has no leap seconds). int64 results wrap and Go's
 * `/` truncates toward zero, as in the source.
 */
module Datetime {
  import opened GoInt

  const SignalTimeUnitNow: int32 := 0
  const SignalTimeUnitMonth: int32 := 30
  const SignalTimeUnitQuarter: int32 := 90
  const SignalTimeUnitHalfYear: int32 := 180
  const SignalTimeUnitYear: int32 := 365
  const SignalTimeUnitThirdQuarter: int32 := 270
  const SignalTimeUnitAllTime: int32 := -1
  const SignalTimeUnitBiMonth: int32 := 60
  const DaysInMilliseconds: int64 := 86_400_000

  /** The units that have a name of their own; each is a number of days. */
  const NamedTimeUnits: set<int32> := {0, 30, 60, 90, 180, 270, 365}

  const NanosPerMilli: int := 1_000_000
  const NanosPerSecond: int := 1_000_000_000
  const NanosPerDay: int := 86_400_000_000_000

  /** The unit's name; everything else, ALLTIME (-1) included, is "alltime". */
  function GetTimeUnitString(timeUnit: int32): (name: string)
    ensures name == "alltime" <==> timeUnit !in NamedTimeUnits
  {
    if timeUnit == SignalTimeUnitNow then "now"
    else if timeUnit == SignalTimeUnitMonth then "month"
    else if timeUnit == SignalTimeUnitQuarter then "quarter"
    else if timeUnit == SignalTimeUnitBiMonth then "bimonth"
    else if timeUnit == SignalTimeUnitHalfYear then "halfyear"
    else if timeUnit == SignalTimeUnitThirdQuarter then "thirdquarter"
    else if timeUnit == SignalTimeUnitYear then "year"
    else "alltime"
  }

  /** Named units have distinct names. */
  lemma GetTimeUnitStringInjective(a: int32, b: int32)
    requires a in NamedTimeUnits && b in NamedTimeUnits
    requires GetTimeUnitString(a) == GetTimeUnitString(b)
    ensures a == b
  {
  }

  /** A time.Time, as nanoseconds since 1970-01-01T00:00:00Z (unbounded, like Go's). */
  datatype Time = Time(unixNanos: int)

  /** The zero time.Time: January 1 of year 1, 00:00:00 UTC. */
  const ZeroTime: Time := Time(-62_135_596_800 * NanosPerSecond)

  predicate IsZero(t: Time) {
    t == ZeroTime
  }

  /** t.UnixNano(): wraps when the instant is outside int64 nanoseconds. */
  function UnixNano(t: Time): int64 {
    Wrap64(t.unixNanos)
  }

  /** t.AddDate(0, 0, days) in UTC. */
  function AddDays(t: Time, days: int): Time {
    Time(t.unixNanos + days * NanosPerDay)
  }

  /** time.Date(year, month, day, hour, min, sec, nsec, time.UTC) for the UTC date of `t`. */
  function OnDateOf(t: Time, hour: nat, min: nat, sec: nat, nsec: nat): Time {
    var midnight := (t.unixNanos / NanosPerDay) * NanosPerDay;  // floor: calendar days
    Time(midnight + hour * 3600 * NanosPerSecond + min * 60 * NanosPerSecond + sec * NanosPerSecond + nsec)
  }

  /**
   * TimeToEpoch: 0 for the zero time, else (UnixNano + 500000) / 1000000.
   * From -500 000 ns on, this is the nearest millisecond, halves rounded up.
   * Below that the division truncates toward zero, and the result is the
   * millisecond in [t + 0.5 ms, t + 1.5 ms): one more than the nearest
   * millisecond, except at exact halves. Within 500 000 ns of the largest
   * int64 the addition wraps and the result is negative.
   */
  function TimeToEpoch(tv: Time): (ms: int64)
    ensures IsZero(tv) ==> ms == 0
    ensures !IsZero(tv) && -500_000 <= tv.unixNanos <= MaxInt64 - 500_000 ==>
      ms * NanosPerMilli - 500_000 <= tv.unixNanos < ms * NanosPerMilli + 500_000
    ensures !IsZero(tv) && MinInt64 <= tv.unixNanos < -500_000 ==>
      ms * NanosPerMilli - 1_500_000 < tv.unixNanos <= ms * NanosPerMilli - 500_000
    ensures !IsZero(tv) && MaxInt64 - 500_000 < tv.unixNanos <= MaxInt64 ==> ms < 0
  {
    if IsZero(tv) then 0 else Quo(Wrap64(UnixNano(tv) + 500_000), NanosPerMilli)
  }

  /** DateFromEpoch: time.Unix(0, t * 1000000), the product wrapping in int64. */
  function DateFromEpoch(t: int64): Time {
    Time(Wrap64(t * NanosPerMilli))
  }

  /** ToMilliSec: UnixNano / 1000000, truncated toward zero. */
  function ToMilliSec(date: Time): int64 {
    Quo(UnixNano(date), NanosPerMilli)
  }

  /** Epochs whose nanosecond counts, and those of their whole day, fit in int64 (about years 1678 to 2261). */
  predicate SafeEpoch(t: int) {
    -9_200_000_000_000 <= t <= 9_200_000_000_000
  }

  /** ToMilliSec undoes DateFromEpoch wherever t * 1000000 fits in int64. */
  lemma ToMilliSecRoundTrip(t: int64)
    requires MinInt64 <= t * NanosPerMilli <= MaxInt64
    ensures ToMilliSec(DateFromEpoch(t)) == t
  {
  }

  /** TimeToEpoch undoes DateFromEpoch for epochs from 1970 until t * 1000000 + 500000 leaves int64 (year 2262). */
  lemma TimeToEpochRoundTrip(t: int64)
    requires 0 <= t && t * NanosPerMilli <= MaxInt64 - 500_000
    ensures TimeToEpoch(DateFromEpoch(t)) == t
  {
    assert !IsZero(DateFromEpoch(t));
  }

  /**
   * Before 1970, down to where t * 1000000 leaves int64 (year 1677), the round
   * trip is off by one: truncation toward zero rounds the half up a whole millisecond.
   */
  lemma TimeToEpochBefore1970(t: int64)
    requires t < 0 && MinInt64 <= t * NanosPerMilli
    ensures TimeToEpoch(DateFromEpoch(t)) == t + 1
  {
    assert !IsZero(DateFromEpoch(t));
  }

  /** StartofDay: midnight (UTC) of the day of `tv`, through TimeToEpoch. */
  function StartofDay(tv: int64): int64 {
    TimeToEpoch(OnDateOf(DateFromEpoch(tv), 0, 0, 0, 0))
  }

  /** EndofDay: 23:59:59.000009999 (UTC) of the day of `tv`, through TimeToEpoch. */
  function EndofDay(tv: int64): int64 {
    TimeToEpoch(OnDateOf(DateFromEpoch(tv), 23, 59, 59, 9999))
  }

  /** The multiple of a day at or before `t`. */
  function FloorDay(t: int): int {
    (t / DaysInMilliseconds) * DaysInMilliseconds
  }

  lemma MidnightOfEpoch(tv: int64)
    requires SafeEpoch(tv)
    ensures (DateFromEpoch(tv).unixNanos / NanosPerDay) * NanosPerDay == FloorDay(tv) * NanosPerMilli
  {
    var q, r := tv / DaysInMilliseconds, tv % DaysInMilliseconds;
    assert tv == q * DaysInMilliseconds + r && 0 <= r < DaysInMilliseconds;
    var ns := tv * NanosPerMilli;
    assert DateFromEpoch(tv).unixNanos == ns;
    assert ns == q * NanosPerDay + r * NanosPerMilli;
    assert 0 <= r * NanosPerMilli < NanosPerDay;
    assert ns / NanosPerDay == q;
  }

  /** An epoch `r` ms into day `k` floors to the start of day `k`. */
  lemma FloorDayOf(t: int, k: int, r: int)
    requires t == k * 86_400_000 + r && 0 <= r < 86_400_000
    ensures FloorDay(t) == k * 86_400_000
  {
    assert t / 86_400_000 == k;
  }

  /** FloorDay is a multiple of a day, at most a day before `t`. */
  lemma FloorDayBounds(t: int)
    ensures FloorDay(t) % DaysInMilliseconds == 0
    ensures FloorDay(t) <= t < FloorDay(t) + DaysInMilliseconds
  {
    var k := t / 86_400_000;
    assert t == k * 86_400_000 + t % 86_400_000;
    assert FloorDay(t) == k * 86_400_000;
  }

  /** TimeToEpoch of a time `extra` ns (under half a millisecond) after millisecond `m`. */
  lemma TimeToEpochOfMilli(t: Time, m: int, extra: int)
    requires 0 <= extra < 500_000 && t.unixNanos == m * 1_000_000 + extra
    requires MinInt64 <= t.unixNanos <= MaxInt64 - 500_000
    ensures TimeToEpoch(t) == m + (if m < 0 then 1 else 0)
  {
    assert !IsZero(t);
    var ms := TimeToEpoch(t);
    if m < 0 {
      assert (ms - m) * 1_000_000 >= 500_000 + extra;
      assert (ms - m) * 1_000_000 < 1_500_000 + extra;
    } else {
      assert -500_000 <= (m - ms) * 1_000_000 + extra < 500_000;
    }
  }

  /** The day start and day end TimeToEpoch gives, for every safe epoch. */
  lemma DayBounds(tv: int64)
    requires SafeEpoch(tv)
    ensures StartofDay(tv) == FloorDay(tv) + (if FloorDay(tv) < 0 then 1 else 0)
    ensures EndofDay(tv) == StartofDay(tv) + 86_399_000
  {
    MidnightOfEpoch(tv);
    var d := FloorDay(tv);
    var start := OnDateOf(DateFromEpoch(tv), 0, 0, 0, 0);
    var end := OnDateOf(DateFromEpoch(tv), 23, 59, 59, 9999);
    assert start.unixNanos == d * 1_000_000;
    assert end.unixNanos == (d + 86_399_000) * 1_000_000 + 9999;
    TimeToEpochOfMilli(start, d, 0);
    TimeToEpochOfMilli(end, d + 86_399_000, 9999);
  }

  /** For safe epochs from 1970 on (up to year 2261), StartofDay is the largest multiple of a day not after `tv`. */
  lemma StartofDayIsMidnight(tv: int64)
    requires 0 <= tv && SafeEpoch(tv)
    ensures StartofDay(tv) % DaysInMilliseconds == 0
    ensures StartofDay(tv) <= tv < StartofDay(tv) + DaysInMilliseconds
  {
    DayBounds(tv);
    FloorDayBounds(tv);
  }

  /** For safe epochs from 1970 on (up to year 2261), EndofDay is 86 399 000 ms after StartofDay: the 9999 ns round away. */
  lemma EndofDayIsLastSecond(tv: int64)
    requires 0 <= tv && SafeEpoch(tv)
    ensures EndofDay(tv) == StartofDay(tv) + 86_399_000
    ensures StartofDay(tv) <= tv < EndofDay(tv) + 1000
  {
    DayBounds(tv);
    FloorDayBounds(tv);
  }

  /** For safe epochs before 1970 (down to year 1678), StartofDay is one millisecond after midnight. */
  lemma StartofDayBefore1970(tv: int64)
    requires tv < 0 && SafeEpoch(tv)
    ensures StartofDay(tv) == FloorDay(tv) + 1
  {
    DayBounds(tv);
  }

  /** Day bounds for an epoch `t` written as whole days `k` plus `r` ms into the day. */
  lemma DayBoundsOf(t: int64, k: int, r: int)
    requires t == k * 86_400_000 + r && 0 <= r < 86_400_000 && SafeEpoch(t)
    ensures StartofDay(t) == k * 86_400_000 + (if k < 0 then 1 else 0)
    ensures EndofDay(t) == k * 86_400_000 + 86_399_000 + (if k < 0 then 1 else 0)
  {
    FloorDayOf(t, k, r);
    DayBounds(t);
  }

  /**
   * The start of a range of `timeunit` days that ends at `end`: the start of
   * the day of 1000 + (end - DaysInMilliseconds * timeunit), all in wrapping
   * int64 arithmetic, or of epoch 0 for -1 (all time).
   */
  function RangeStart(end: int64, timeunit: int64): int64 {
    var begin := Wrap64(1000 + Wrap64(end - Wrap64(DaysInMilliseconds * timeunit)));
    StartofDay(if timeunit == -1 then 0 else begin)
  }

  /** DateRange: the start and the end (inclusive, to the second) of the `timeunit` days up to `ref`'s day. */
  function DateRange(ref: Time, timeunit: int64): (int64, int64) {
    var end := EndofDay(TimeToEpoch(ref));
    (RangeStart(end, timeunit), end)
  }

  /** The all-time range begins at epoch 0. */
  lemma DateRangeAllTime(ref: Time)
    ensures DateRange(ref, -1).0 == 0
  {
    DayBoundsOf(0, 0, 0);
  }

  /** A range of `u` days ending on day `k` starts at the midnight u - 1 days before that day. */
  lemma RangeStartOfDay(end: int64, u: int64, k: int)
    requires 0 <= k && k * 86_400_000 <= 9_100_000_000_000 && end == k * 86_400_000 + 86_399_000
    requires 0 <= u <= k + 1
    ensures RangeStart(end, u) == (k - u + 1) * 86_400_000
  {
    var begin := (k - u + 1) * 86_400_000;
    RangeBeginNoWrap(end, u, begin);
    assert RangeStart(end, u) == StartofDay(begin);
    DayBoundsOf(begin, k - u + 1, 0);
  }

  /** While nothing overflows, the day DateRange starts from is exact. */
  lemma RangeBeginNoWrap(end: int64, u: int64, begin: int)
    requires 0 <= u && u * 86_400_000 <= end + 1000 <= 9_200_000_000_000
    requires begin == 1000 + end - u * 86_400_000
    ensures Wrap64(1000 + Wrap64(end - Wrap64(DaysInMilliseconds * u))) == begin
  {
    assert Wrap64(DaysInMilliseconds * u) == u * 86_400_000;
  }

  /**
   * For reference epochs from 1970 up to 9.1e12 ms (year 2258), a range of
   * `u` days ends at the last second of the reference day and begins u - 1
   * days before that day's midnight; for u == 0 (now) it begins the next day,
   * after its end.
   */
  lemma DateRangeWindow(ref: Time, u: int64)
    requires 0 <= TimeToEpoch(ref) <= 9_100_000_000_000
    requires 0 <= u <= TimeToEpoch(ref) / DaysInMilliseconds + 1
    ensures DateRange(ref, u).0 == FloorDay(TimeToEpoch(ref)) - (u - 1) * DaysInMilliseconds
    ensures DateRange(ref, u).1 == FloorDay(TimeToEpoch(ref)) + 86_399_000
    ensures u == 0 ==> DateRange(ref, u).0 > DateRange(ref, u).1
  {
    var e := TimeToEpoch(ref);
    var q, r := e / DaysInMilliseconds, e % DaysInMilliseconds;
    assert e == q * 86_400_000 + r && 0 <= r < 86_400_000;
    DayBoundsOf(e, q, r);
    RangeStartOfDay(EndofDay(e), u, q);
    assert FloorDay(e) == q * 86_400_000;
    assert (u - 1) * DaysInMilliseconds == (u - 1) * 86_400_000;
  }

  /** The moment `timeunit` days before `end`, in wrapping int64 arithmetic. */
  function PreviousEnd(end: int64, timeunit: int64): int64 {
    Wrap64(end - Wrap64(DaysInMilliseconds * timeunit))
  }

  /** DateRangePrevious: the range of the same unit that ends `timeunit` days before the end of `ref`'s day. */
  function DateRangePrevious(ref: int64, timeunit: int64): (int64, int64) {
    DateRange(DateFromEpoch(PreviousEnd(EndofDay(ref), timeunit)), timeunit)
  }

  /**
   * For reference epochs from 1970 up to 9.1e12 ms (year 2258), and a previous
   * range that starts from 1970 on, the previous range of `u` days ends on the
   * day before the current range begins.
   */
  lemma DateRangePreviousWindow(ref: int64, u: int64)
    requires 0 <= ref <= 9_100_000_000_000
    requires 1 <= u && 2 * u - 1 <= ref / DaysInMilliseconds
    ensures DateRangePrevious(ref, u).0 == FloorDay(ref) - (2 * u - 1) * DaysInMilliseconds
    ensures DateRangePrevious(ref, u).1 == FloorDay(ref) - u * DaysInMilliseconds + 86_399_000
    ensures DateRangePrevious(ref, u).1 + 1000 == FloorDay(ref) - (u - 1) * DaysInMilliseconds
  {
    var q, r := ref / DaysInMilliseconds, ref % DaysInMilliseconds;
    assert ref == q * 86_400_000 + r && 0 <= r < 86_400_000;
    DayBoundsOf(ref, q, r);
    var begin := (q - u) * 86_400_000 + 86_399_000;
    PreviousEndNoWrap(EndofDay(ref), u, begin);
    TimeToEpochRoundTrip(begin);
    FloorDayOf(begin, q - u, 86_399_000);
    DateRangeWindow(DateFromEpoch(begin), u);
    FloorDayOf(ref, q, r);
    assert (u - 1) * DaysInMilliseconds == (u - 1) * 86_400_000;
    assert (2 * u - 1) * DaysInMilliseconds == (2 * u - 1) * 86_400_000;
    assert u * DaysInMilliseconds == u * 86_400_000;
  }

  /** While nothing overflows, the previous range ends exactly `u` days earlier. */
  lemma PreviousEndNoWrap(end: int64, u: int64, begin: int)
    requires 0 <= u * 86_400_000 <= end <= 9_200_000_000_000
    requires begin == end - u * 86_400_000
    ensures PreviousEnd(end, u) == begin
  {
    assert Wrap64(DaysInMilliseconds * u) == u * 86_400_000;
  }

  /** GetSignalDate: the short date `timeUnit` days before `refDate`, or "" for an unnamed unit. */
  function GetSignalDate(timeUnit: int32, refDate: Time, shortDateFromTime: Time -> string): (date: string)
    ensures timeUnit !in NamedTimeUnits ==> date == ""
    ensures timeUnit in NamedTimeUnits ==> date == shortDateFromTime(AddDays(refDate, -timeUnit))
  {
    if timeUnit == SignalTimeUnitNow then shortDateFromTime(refDate)
    else if timeUnit == SignalTimeUnitMonth then shortDateFromTime(AddDays(refDate, -30))
    else if timeUnit == SignalTimeUnitBiMonth then shortDateFromTime(AddDays(refDate, -60))
    else if timeUnit == SignalTimeUnitQuarter then shortDateFromTime(AddDays(refDate, -90))
    else if timeUnit == SignalTimeUnitHalfYear then shortDateFromTime(AddDays(refDate, -180))
    else if timeUnit == SignalTimeUnitThirdQuarter then shortDateFromTime(AddDays(refDate, -270))
    else if timeUnit == SignalTimeUnitYear then shortDateFromTime(AddDays(refDate, -365))
    else ""
  }

  /**
   * EpochMinuteApart: whether two epochs are at most a minute apart. The
   * subtraction wraps in int64, so the answer is exact whenever the distance
   * itself fits in an int64, and always true when it does not.
   */
  function EpochMinuteApart(epoch1: int64, epoch2: int64): (apart: bool)
    ensures -MaxInt64 <= epoch1 - epoch2 <= MaxInt64 ==>
      (apart <==> -60_000 <= epoch1 - epoch2 <= 60_000)
    ensures epoch1 - epoch2 > MaxInt64 || epoch2 - epoch1 > MaxInt64 ==> apart
  {
    var big := if epoch2 > epoch1 then epoch2 else epoch1;
    var small := if epoch2 > epoch1 then epoch1 else epoch2;
    Wrap64(big - small) <= 1000 * 60
  }

  /** The order of the two epochs does not matter. */
  lemma EpochMinuteApartSymmetric(a: int64, b: int64)
    ensures EpochMinuteApart(a, b) == EpochMinuteApart(b, a)
  {
  }
}

=== FILE: decimal.dfy ===
/**
 * Base-10 text of a signed integer, as Go's `fmt` verb `%d` writes it for
 * every signed integer width: an optional minus sign followed by the digits
 * of the magnitude, without leading zeros.
 */
module Decimal {
  import opened GoInt

  const Minus: byte := 0x2D  // '-'
  const Zero: byte := 0x30   // '0'

  predicate IsDigit(c: byte) {
    Zero <= c <= Zero + 9
  }

  predicate AllDigits(s: seq<byte>) {
    forall i :: 0 <= i < |s| ==> IsDigit(s[i])
  }

  /** The number a run of decimal digits denotes, most significant first. */
  function DigitsValue(s: seq<byte>): nat
    requires AllDigits(s)
  {
    if s == [] then 0 else DigitsValue(s[..|s| - 1]) * 10 + (s[|s| - 1] - Zero)
  }

  /** The digits of `n`: never empty, no leading zero, and they denote `n`. */
  function Digits(n: nat): (r: seq<byte>)
    ensures |r| >= 1 && AllDigits(r)
    ensures r[0] == Zero ==> r == [Zero]
    ensures DigitsValue(r) == n
    decreases n
  {
    if n < 10 then [Zero + n]
    else
      var r := Digits(n / 10) + [Zero + n % 10];
      assert r[..|r| - 1] == Digits(n / 10);
      r
  }

  /** `%d` of `v`. */
  function DecimalText(v: int): (r: seq<byte>)
    ensures |r| >= 1
    ensures r[0] == Minus <==> v < 0
    ensures v < 0 ==> |r| >= 2 && AllDigits(r[1..]) && r[1] != Zero && DigitsValue(r[1..]) == -v
    ensures v >= 0 ==> AllDigits(r) && (r[0] == Zero ==> r == [Zero]) && DigitsValue(r) == v
  {
    if v < 0 then [Minus] + Digits(-v) else Digits(v)
  }

  /** Different integers have different decimal texts. */
  lemma DecimalTextInjective(a: int, b: int)
    requires DecimalText(a) == DecimalText(b)
    ensures a == b
  {
    var t := DecimalText(a);
    if a < 0 {
      assert -a == DigitsValue(t[1..]) == -b;
    } else {
      assert a == DigitsValue(t) == b;
    }
  }
}

=== FILE: goint.dfy ===
/**
 * Go's fixed-width integers and the two pieces of Go integer arithmetic the
 * model needs written out: two's-complement wrap-around of int64 arithmetic
 * and division that truncates toward zero.
 */
module GoInt {

  const MinInt64: int := -0x8000_0000_0000_0000
  const MaxInt64: int := 0x7fff_ffff_ffff_ffff
  const MaxUint64: int := 0xffff_ffff_ffff_ffff
  const Two64: int := 0x1_0000_0000_0000_0000

  type byte = x: int | 0 <= x < 0x100
  type int32 = x: int | -0x8000_0000 <= x < 0x8000_0000
  type int64 = x: int | MinInt64 <= x <= MaxInt64
  type uint64 = x: int | 0 <= x <= MaxUint64

  /** The int64 that an exact result `x` wraps around to in Go. */
  function Wrap64(x: int): (r: int64)
    ensures (x - r) % Two64 == 0
    ensures MinInt64 <= x <= MaxInt64 ==> r == x
  {
    (x - MinInt64) % Two64 + MinInt64
  }

  /** Go's `a / b` for a positive divisor: the quotient truncated toward zero. */
  function Quo(a: int, b: int): (q: int)
    requires b > 0
    ensures a >= 0 ==> 0 <= a - q * b < b
    ensures a < 0 ==> -b < a - q * b <= 0
    ensures a >= 0 ==> 0 <= q <= a
    ensures a < 0 ==> a <= q <= 0
  {
    if a >= 0 then
      DivisionBounds(a, b);
      a / b
    else
      DivisionBounds(-a, b);
      -((-a) / b)
  }

  lemma DivisionBounds(a: nat, b: int)
    requires b > 0
    ensures 0 <= a - (a / b) * b < b
    ensures 0 <= a / b <= a
  {
    var q, r := a / b, a % b;
    assert a == q * b + r && 0 <= r < b;
    MultiplyMonotone(q, b);
  }

  lemma MultiplyMonotone(q: nat, b: int)
    requires b > 0
    ensures q * b >= q
  {
    var k := b - 1;
    assert q * b == q * k + q;
    assert q * k >= 0;
  }
}

=== FILE: hash.dfy ===
/**
 * The value-fingerprinting engine: every argument is written, in argument
 * order, as a canonical byte string into a streaming 64-bit digest, and the
 * digest is rendered as 16 lower-case hex digits.
 *
 * The digest algorithm (xxhash) is not modelled: it is the parameter
 * `sum64`, the function from everything written to the final 64-bit sum.
 * Every property proved here holds for every such function.
 */
module Hash {
  import opened GoInt
  import opened Wrappers
  import opened Decimal
  import opened Hex

  /** The signed integer types the engine formats with `%d`. */
  datatype IntWidth = Int | Int8 | Int16 | Int32 | Int64

  predicate InRange(w: IntWidth, v: int) {
    match w
    case Int | Int64 => MinInt64 <= v <= MaxInt64  // Go's int is 64 bits wide here
    case Int8 => -0x80 <= v < 0x80
    case Int16 => -0x8000 <= v < 0x8000
    case Int32 => -0x8000_0000 <= v < 0x8000_0000
  }

  /**
   * One argument of `Values`, by the dynamic type the type switch finds.
   * Go strings are byte strings. A pointer is `None` when it is nil.
   * `Composite` is anything the switch sends to the reflection fallback,
   * carried as the bytes `json.Marshal` or `%v` produce for it.
   */
  datatype Arg =
    | Nil                                       // an untyped nil interface
    | Str(text: seq<byte>)                      // string
    | Bytes(bytes: seq<byte>)                   // []byte
    | Strs(texts: seq<seq<byte>>)               // []string
    | Bool(flag: bool)                          // bool
    | Integer(width: IntWidth, v: int)          // int, int8, int16, int32, int64
    | StrPtr(textPtr: Option<seq<byte>>)        // *string
    | IntegerPtr(ptrWidth: IntWidth, vPtr: Option<int>)  // *int, *int8, ..., *int64
    | BoolPtr(flagPtr: Option<bool>)            // *bool
    | Composite(rendering: seq<byte>)           // reflection fallback

  /** An argument that a Go value of its type can actually be. */
  predicate WellTyped(a: Arg) {
    match a
    case Integer(w, v) => InRange(w, v)
    case IntegerPtr(w, p) => p.Some? ==> InRange(w, p.value)
    case _ => true
  }

  /** What both `bool` and `%v` of a `bool` write: the ASCII bytes of "true" or "false". */
  function BoolText(b: bool): seq<byte> {
    if b then [0x74, 0x72, 0x75, 0x65] else [0x66, 0x61, 0x6c, 0x73, 0x65]
  }

  /** The elements of a `[]string`, back to back. */
  function Concat(ss: seq<seq<byte>>): seq<byte> {
    if ss == [] then [] else Concat(ss[..|ss| - 1]) + ss[|ss| - 1]
  }

  /** The bytes one argument contributes to the digest. */
  function Encode(a: Arg): seq<byte> {
    match a
    case Nil => []
    case Str(s) => s
    case Bytes(b) => b
    case Strs(ss) => Concat(ss)
    case Bool(b) => BoolText(b)
    case Integer(_, v) => DecimalText(v)
    case StrPtr(p) => if p.None? then [] else p.value
    case IntegerPtr(_, p) => if p.None? then [] else DecimalText(p.value)
    case BoolPtr(p) => if p.None? then [] else BoolText(p.value)
    case Composite(r) => r
  }

  /** Everything written to the digest for `args`: their encodings in argument order. */
  function Stream(args: seq<Arg>): seq<byte> {
    if args == [] then [] else Stream(args[..|args| - 1]) + Encode(args[|args| - 1])
  }

  /** The fingerprint of `args` under the digest `sum64`. */
  function Fingerprint(sum64: seq<byte> -> uint64, args: seq<Arg>): (fp: seq<byte>)
    ensures |fp| == 16 && AllLowerHex(fp)
    ensures AllHex(fp) && HexValue(fp) == sum64(Stream(args))
  {
    ToHex16(sum64(Stream(args)))
  }

  /** A streaming xxhash digest, seen as the bytes written to it so far. */
  class Digest {
    const sum: seq<byte> -> uint64
    var written: seq<byte>

    constructor (sum: seq<byte> -> uint64)
      ensures this.sum == sum && written == []
    {
      this.sum := sum;
      written := [];
    }

    method Write(b: seq<byte>)
      modifies this
      ensures written == old(written) + b
    {
      written := written + b;
    }

    function Sum64(): uint64
      reads this
    {
      sum(written)
    }
  }

  /** The body of hashValues' type switch: write one argument's encoding into `h`. */
  method WriteArg(h: Digest, o: Arg)
    modifies h
    ensures h.written == old(h.written) + Encode(o)
  {
    match o {
      case Nil => h.Write([]);
      case Str(s) => h.Write(s);
      case Bytes(b) => h.Write(b);
      case Strs(ss) =>
        for j := 0 to |ss|
          invariant h.written == old(h.written) + Concat(ss[..j])
        {
          assert ss[..j + 1][..j] == ss[..j];
          h.Write(ss[j]);
        }
        assert ss[..|ss|] == ss;
      case Bool(b) => h.Write(BoolText(b));
      case Integer(_, v) => h.Write(DecimalText(v));
      case StrPtr(p) =>
        if p.None? { h.Write([]); } else { h.Write(p.value); }
      case IntegerPtr(_, p) =>
        if p.None? { h.Write([]); } else { h.Write(DecimalText(p.value)); }
      case BoolPtr(p) =>
        if p.None? { h.Write([]); } else { h.Write(BoolText(p.value)); }
      case Composite(r) => h.Write(r);
    }
  }

  /** hashValues: write every argument into a fresh digest, then render its sum. */
  method HashValues(sum64: seq<byte> -> uint64, objects: seq<Arg>) returns (fp: seq<byte>)
    requires forall i :: 0 <= i < |objects| ==> WellTyped(objects[i])  // Go's types bound every integer
    ensures fp == Fingerprint(sum64, objects)
  {
    var h := new Digest(sum64);
    for i := 0 to |objects|
      invariant h.sum == sum64
      invariant h.written == Stream(objects[..i])
    {
      WriteArg(h, objects[i]);
      assert objects[..i + 1][..i] == objects[..i];
    }
    assert objects[..|objects|] == objects;
    fp := ToHex16(h.Sum64());
  }

  /** Values: the exported entry point. */
  method Values(sum64: seq<byte> -> uint64, objects: seq<Arg>) returns (fp: seq<byte>)
    requires forall i :: 0 <= i < |objects| ==> WellTyped(objects[i])
    ensures fp == Fingerprint(sum64, objects)
    ensures |fp| == 16
  {
    fp := HashValues(sum64, objects);
  }

  /** Sum64: the integer a fingerprint's hex text denotes, with ParseUint's soft failures. */
  function Sum64(sha: seq<byte>): (n: uint64)
    ensures n == ParseSpec(sha)
    ensures sha == [] ==> n == 0
  {
    ParseUintMatchesSpec(sha);
    ParseUint(sha)
  }

  // ---------------------------------------------------------------------
  // Argument order and the byte stream

  /** Writing a list in two parts writes the parts back to back. */
  lemma {:induction false} StreamAppend(a: seq<Arg>, b: seq<Arg>)
    ensures Stream(a + b) == Stream(a) + Stream(b)
    decreases |b|
  {
    if b == [] {
      assert a + b == a;
    } else {
      var b' := b[..|b| - 1];
      assert Stream(a + b) == Stream(a + b') + Encode(b[|b| - 1]) by {
        var ab := a + b;
        assert ab[..|ab| - 1] == a + b';
        assert ab[|ab| - 1] == b[|b| - 1];
      }
      StreamAppend(a, b');
      assert Stream(b) == Stream(b') + Encode(b[|b| - 1]);
      AppendAssociates(Stream(a), Stream(b'), Encode(b[|b| - 1]));
    }
  }

  lemma AppendAssociates(x: seq<byte>, y: seq<byte>, z: seq<byte>)
    ensures (x + y) + z == x + (y + z)
  {
  }

  /** A single argument writes exactly its own encoding. */
  lemma StreamOne(x: Arg)
    ensures Stream([x]) == Encode(x)
  {
    assert [x][..0] == [];
  }

  /** Arguments are absorbed strictly in order: the stream of a list is its head's bytes, then the rest's. */
  lemma StreamInOrder(x: Arg, rest: seq<Arg>)
    ensures Stream([x] + rest) == Encode(x) + Stream(rest)
  {
    StreamAppend([x], rest);
    StreamOne(x);
  }

  /** Swapping two arguments changes what the digest reads, e.g. "x" then "y" against "y" then "x". */
  lemma StreamOrderMatters()
    ensures Stream([Str([0x78]), Str([0x79])]) != Stream([Str([0x79]), Str([0x78])])
  {
    assert [Str([0x78]), Str([0x79])] == [Str([0x78])] + [Str([0x79])];
    assert [Str([0x79]), Str([0x78])] == [Str([0x79])] + [Str([0x78])];
    StreamInOrder(Str([0x78]), [Str([0x79])]);
    StreamInOrder(Str([0x79]), [Str([0x78])]);
    assert Stream([Str([0x78]), Str([0x79])])[0] == 0x78;
    assert Stream([Str([0x79]), Str([0x78])])[0] == 0x79;
  }

  /** An argument in the middle of the list writes its encoding between what comes before and after it. */
  lemma StreamSplit(pre: seq<Arg>, x: Arg, post: seq<Arg>)
    ensures Stream(pre + [x] + post) == Stream(pre) + Encode(x) + Stream(post)
  {
    assert Stream(pre + [x]) == Stream(pre) + Encode(x) by {
      StreamAppend(pre, [x]);
      StreamOne(x);
    }
    StreamAppend(pre + [x], post);
  }

  /** Replacing one argument by another with the same encoding keeps the stream. */
  lemma StreamSubstitute(pre: seq<Arg>, x: Arg, y: Arg, post: seq<Arg>)
    requires Encode(x) == Encode(y)
    ensures Stream(pre + [x] + post) == Stream(pre + [y] + post)
  {
    StreamSplit(pre, x, post);
    StreamSplit(pre, y, post);
  }

  /** An argument that encodes to no bytes leaves the stream as it is. */
  lemma StreamDropsEmpty(pre: seq<Arg>, x: Arg, post: seq<Arg>)
    requires Encode(x) == []
    ensures Stream(pre + [x] + post) == Stream(pre + post)
  {
    StreamSplit(pre, x, post);
    StreamAppend(pre, post);
    assert Stream(pre) + Encode(x) == Stream(pre);
  }

  /** Lists that write the same bytes have the same fingerprint. */
  lemma FingerprintOfStream(sum64: seq<byte> -> uint64, a: seq<Arg>, b: seq<Arg>)
    requires Stream(a) == Stream(b)
    ensures Fingerprint(sum64, a) == Fingerprint(sum64, b)
  {
  }

  /** Replacing one argument by another with the same encoding keeps the fingerprint. */
  lemma FingerprintSubstitute(sum64: seq<byte> -> uint64, pre: seq<Arg>, x: Arg, y: Arg, post: seq<Arg>)
    requires Encode(x) == Encode(y)
    ensures Fingerprint(sum64, pre + [x] + post) == Fingerprint(sum64, pre + [y] + post)
  {
    StreamSubstitute(pre, x, y, post);
    FingerprintOfStream(sum64, pre + [x] + post, pre + [y] + post);
  }

  /** An argument that encodes to no bytes can be dropped without changing the fingerprint. */
  lemma FingerprintDropsEmpty(sum64: seq<byte> -> uint64, pre: seq<Arg>, x: Arg, post: seq<Arg>)
    requires Encode(x) == []
    ensures Fingerprint(sum64, pre + [x] + post) == Fingerprint(sum64, pre + post)
  {
    StreamDropsEmpty(pre, x, post);
    FingerprintOfStream(sum64, pre + [x] + post, pre + post);
  }

  // ---------------------------------------------------------------------
  // The canonicalization rules, stated as fingerprint equalities

  /** nil, "", and a nil *string, integer pointer or *bool all contribute nothing. */
  lemma FingerprintNilTransparent(sum64: seq<byte> -> uint64, pre: seq<Arg>, post: seq<Arg>, w: IntWidth)
    ensures Fingerprint(sum64, pre + [Nil] + post) == Fingerprint(sum64, pre + post)
    ensures Fingerprint(sum64, pre + [Str([])] + post) == Fingerprint(sum64, pre + post)
    ensures Fingerprint(sum64, pre + [StrPtr(None)] + post) == Fingerprint(sum64, pre + post)
    ensures Fingerprint(sum64, pre + [IntegerPtr(w, None)] + post) == Fingerprint(sum64, pre + post)
    ensures Fingerprint(sum64, pre + [BoolPtr(None)] + post) == Fingerprint(sum64, pre + post)
  {
    StreamDropsEmpty(pre, Nil, post);
    FingerprintOfStream(sum64, pre + [Nil] + post, pre + post);
    StreamDropsEmpty(pre, Str([]), post);
    FingerprintOfStream(sum64, pre + [Str([])] + post, pre + post);
    StreamDropsEmpty(pre, StrPtr(None), post);
    FingerprintOfStream(sum64, pre + [StrPtr(None)] + post, pre + post);
    StreamDropsEmpty(pre, IntegerPtr(w, None), post);
    FingerprintOfStream(sum64, pre + [IntegerPtr(w, None)] + post, pre + post);
    StreamDropsEmpty(pre, BoolPtr(None), post);
    FingerprintOfStream(sum64, pre + [BoolPtr(None)] + post, pre + post);
  }

  /** A non-nil *string fingerprints like the string it points to. */
  lemma FingerprintStrPtrTransparent(sum64: seq<byte> -> uint64, pre: seq<Arg>, post: seq<Arg>, s: seq<byte>)
    ensures Fingerprint(sum64, pre + [StrPtr(Some(s))] + post) == Fingerprint(sum64, pre + [Str(s)] + post)
  {
    StreamSubstitute(pre, StrPtr(Some(s)), Str(s), post);
    FingerprintOfStream(sum64, pre + [StrPtr(Some(s))] + post, pre + [Str(s)] + post);
  }

  /** A non-nil pointer to an integer fingerprints like the integer it points to. */
  lemma FingerprintIntegerPtrTransparent(sum64: seq<byte> -> uint64, pre: seq<Arg>, post: seq<Arg>, w: IntWidth, v: int)
    ensures Fingerprint(sum64, pre + [IntegerPtr(w, Some(v))] + post) == Fingerprint(sum64, pre + [Integer(w, v)] + post)
  {
    assert Encode(IntegerPtr(w, Some(v))) == Encode(Integer(w, v));
    StreamSubstitute(pre, IntegerPtr(w, Some(v)), Integer(w, v), post);
    FingerprintOfStream(sum64, pre + [IntegerPtr(w, Some(v))] + post, pre + [Integer(w, v)] + post);
  }

  /** A non-nil *bool fingerprints like the bool it points to. */
  lemma FingerprintBoolPtrTransparent(sum64: seq<byte> -> uint64, pre: seq<Arg>, post: seq<Arg>, b: bool)
    ensures Fingerprint(sum64, pre + [BoolPtr(Some(b))] + post) == Fingerprint(sum64, pre + [Bool(b)] + post)
  {
    StreamSubstitute(pre, BoolPtr(Some(b)), Bool(b), post);
    FingerprintOfStream(sum64, pre + [BoolPtr(Some(b))] + post, pre + [Bool(b)] + post);
  }

  /** The same integer fingerprints alike at every width, and a []byte like the string of its bytes. */
  lemma FingerprintWidthAndBytesTransparent(sum64: seq<byte> -> uint64, pre: seq<Arg>, post: seq<Arg>,
                                            w1: IntWidth, w2: IntWidth, v: int, s: seq<byte>)
    ensures Fingerprint(sum64, pre + [Integer(w1, v)] + post) == Fingerprint(sum64, pre + [Integer(w2, v)] + post)
    ensures Fingerprint(sum64, pre + [Bytes(s)] + post) == Fingerprint(sum64, pre + [Str(s)] + post)
  {
    StreamSubstitute(pre, Integer(w1, v), Integer(w2, v), post);
    FingerprintOfStream(sum64, pre + [Integer(w1, v)] + post, pre + [Integer(w2, v)] + post);
    StreamSubstitute(pre, Bytes(s), Str(s), post);
    FingerprintOfStream(sum64, pre + [Bytes(s)] + post, pre + [Str(s)] + post);
  }

  /** Two adjacent strings write the same bytes as their concatenation. */
  lemma StreamNoSeparator(pre: seq<Arg>, x: seq<byte>, y: seq<byte>, post: seq<Arg>)
    ensures Stream(pre + [Str(x), Str(y)] + post) == Stream(pre + [Str(x + y)] + post)
  {
    assert pre + [Str(x), Str(y)] + post == (pre + [Str(x)]) + [Str(y)] + post;
    StreamSplit(pre + [Str(x)], Str(y), post);
    assert Stream(pre + [Str(x)]) == Stream(pre) + x by {
      StreamSplit(pre, Str(x), []);
      assert pre + [Str(x)] + [] == pre + [Str(x)];
    }
    StreamSplit(pre, Str(x + y), post);
    AppendAssociates(Stream(pre), x, y);
  }

  /** No separator: "ab", "c" fingerprints like "abc" (split anywhere, anywhere in the list). */
  lemma FingerprintNoSeparator(sum64: seq<byte> -> uint64, pre: seq<Arg>, x: seq<byte>, y: seq<byte>, post: seq<Arg>)
    ensures Fingerprint(sum64, pre + [Str(x), Str(y)] + post) == Fingerprint(sum64, pre + [Str(x + y)] + post)
  {
    StreamNoSeparator(pre, x, y, post);
    FingerprintOfStream(sum64, pre + [Str(x), Str(y)] + post, pre + [Str(x + y)] + post);
  }

  /** The arguments a []string would be if passed one by one. */
  function StrArgs(ss: seq<seq<byte>>): (r: seq<Arg>)
    ensures |r| == |ss| && forall i :: 0 <= i < |ss| ==> r[i] == Str(ss[i])
  {
    seq(|ss|, i requires 0 <= i < |ss| => Str(ss[i]))
  }

  lemma {:induction false} StreamOfStrArgs(ss: seq<seq<byte>>)
    ensures Stream(StrArgs(ss)) == Concat(ss)
  {
    if ss != [] {
      var n := |ss|;
      assert StrArgs(ss)[..n - 1] == StrArgs(ss[..n - 1]);
      StreamOfStrArgs(ss[..n - 1]);
    }
  }

  /** A []string writes the same bytes as its elements passed as separate string arguments. */
  lemma StreamSpreadsStrings(pre: seq<Arg>, ss: seq<seq<byte>>, post: seq<Arg>)
    ensures Stream(pre + [Strs(ss)] + post) == Stream(pre + StrArgs(ss) + post)
  {
    StreamSplit(pre, Strs(ss), post);
    assert Stream(pre + StrArgs(ss)) == Stream(pre) + Concat(ss) by {
      StreamAppend(pre, StrArgs(ss));
      StreamOfStrArgs(ss);
    }
    StreamAppend(pre + StrArgs(ss), post);
  }

  /** A []string fingerprints like its elements passed as separate string arguments. */
  lemma FingerprintSpreadsStrings(sum64: seq<byte> -> uint64, pre: seq<Arg>, ss: seq<seq<byte>>, post: seq<Arg>)
    ensures Fingerprint(sum64, pre + [Strs(ss)] + post) == Fingerprint(sum64, pre + StrArgs(ss) + post)
  {
    StreamSpreadsStrings(pre, ss, post);
    FingerprintOfStream(sum64, pre + [Strs(ss)] + post, pre + StrArgs(ss) + post);
  }

  /** bool and a non-nil *bool write "true" or "false"; the two never coincide. */
  lemma EncodeBool(b: bool)
    ensures Encode(Bool(b)) == Encode(BoolPtr(Some(b)))
    ensures Encode(Bool(true)) != Encode(Bool(false))
  {
  }

  /** Integers write their decimal text, so distinct integers write distinct bytes. */
  lemma EncodeIntegerInjective(w1: IntWidth, a: int, w2: IntWidth, b: int)
    requires Encode(Integer(w1, a)) == Encode(Integer(w2, b))
    ensures a == b
  {
    DecimalTextInjective(a, b);
  }

  // ---------------------------------------------------------------------
  // Sum64

  /** Sum64 inverts the %016x rendering. */
  lemma Sum64RoundTrip(d: uint64)
    ensures Sum64(ToHex16(d)) == d
  {
    var r := ToHex16(d);
    AllHexPrefixLength(r);
    assert r[..16] == r;
  }

  /** Parsing a fingerprint gives back the digest it was rendered from. */
  lemma Sum64OfFingerprint(sum64: seq<byte> -> uint64, args: seq<Arg>)
    ensures Sum64(Fingerprint(sum64, args)) == sum64(Stream(args))
  {
    Sum64RoundTrip(sum64(Stream(args)));
  }

  /** Well-formed hex of at most 2^64 - 1, in either letter case and with any leading zeros, parses to its value. */
  lemma Sum64Valid(s: seq<byte>)
    requires AllHex(s) && HexValue(s) <= MaxUint64
    ensures Sum64(s) == HexValue(s)
  {
    AllHexPrefixLength(s);
    assert s[..|s|] == s;
  }

  /** A byte that is not a hex digit among the first 16 makes Sum64 fail soft to 0. */
  lemma Sum64Malformed(s: seq<byte>, i: nat)
    requires i < |s| && i < 16 && !IsHexByte(s[i])
    ensures Sum64(s) == 0
  {
    var k := HexPrefixLength(s);
    HexValueBound(s[..k]);
    Pow16Monotone(k, 15);
    Pow16Facts();
  }

  /** Once the digits read so far exceed 2^64 - 1, Sum64 is 2^64 - 1, whatever follows. */
  lemma Sum64Saturates(s: seq<byte>, i: nat)
    requires i <= |s| && AllHex(s[..i]) && HexValue(s[..i]) > MaxUint64
    ensures Sum64(s) == MaxUint64
  {
    var k := HexPrefixLength(s);
    PrefixWithinHexRun(s, i);
    HexValuePrefixMonotone(s[..k], i, k);
    assert s[..k][..i] == s[..i];
    assert s[..k][..k] == s[..k];
  }
}

=== FILE: hex.dfy ===
/**
 * Hexadecimal text of 64-bit values: the `%016x` rendering Go's `fmt` gives a
 * uint64, and the value `strconv.ParseUint(s, 16, 64)` returns for a string
 * (its error is dropped by every caller in this model).
 */
module Hex {
  import opened GoInt
  import opened Wrappers

  /** The digit value ParseUint gives a byte in base 16; both letter cases are accepted. */
  function HexDigitValue(c: byte): (d: Option<nat>)
    ensures d.Some? ==> d.value < 16
  {
    if 0x30 <= c <= 0x39 then Some(c - 0x30)        // '0'..'9'
    else if 0x61 <= c <= 0x66 then Some(c - 0x61 + 10)  // 'a'..'f'
    else if 0x41 <= c <= 0x46 then Some(c - 0x41 + 10)  // 'A'..'F'
    else None
  }

  predicate IsHexByte(c: byte) {
    HexDigitValue(c).Some?
  }

  predicate AllHex(s: seq<byte>) {
    forall i :: 0 <= i < |s| ==> IsHexByte(s[i])
  }

  /** What `%x` may write: '0'..'9' and 'a'..'f'. */
  predicate IsLowerHex(c: byte) {
    0x30 <= c <= 0x39 || 0x61 <= c <= 0x66
  }

  predicate AllLowerHex(s: seq<byte>) {
    forall i :: 0 <= i < |s| ==> IsLowerHex(s[i])
  }

  /** The number a run of hex digits denotes, most significant first (unbounded). */
  function HexValue(s: seq<byte>): nat
    requires AllHex(s)
  {
    if s == [] then 0 else HexValue(s[..|s| - 1]) * 16 + HexDigitValue(s[|s| - 1]).value
  }

  function Pow16(k: nat): (p: nat)
    ensures p >= 1
  {
    if k == 0 then 1 else 16 * Pow16(k - 1)
  }

  lemma Pow16Facts()
    ensures Pow16(15) == 0x1000_0000_0000_0000
    ensures Pow16(16) == Two64
  {
    assert Pow16(4) == 0x1_0000;
    assert Pow16(8) == 0x1_0000_0000;
    assert Pow16(12) == 0x1_0000_0000_0000;
  }

  lemma {:induction false} Pow16Monotone(j: nat, k: nat)
    requires j <= k
    ensures Pow16(j) <= Pow16(k)
  {
    if j < k {
      Pow16Monotone(j, k - 1);
    }
  }

  /** k hex digits denote less than 16^k. */
  lemma {:induction false} HexValueBound(s: seq<byte>)
    requires AllHex(s)
    ensures HexValue(s) < Pow16(|s|)
  {
    if s != [] {
      HexValueBound(s[..|s| - 1]);
    }
  }

  /** Reading more digits never makes the value smaller. */
  lemma {:induction false} HexValuePrefixMonotone(t: seq<byte>, i: nat, j: nat)
    requires AllHex(t) && i <= j <= |t|
    ensures HexValue(t[..i]) <= HexValue(t[..j])
  {
    if i < j {
      HexValuePrefixMonotone(t, i, j - 1);
      assert t[..j][..j - 1] == t[..j - 1];
    }
  }

  /** The lower-case digit `%x` writes for `d`. */
  function LowerHexDigit(d: nat): (c: byte)
    requires d < 16
    ensures IsLowerHex(c) && HexDigitValue(c) == Some(d)
  {
    if d < 10 then 0x30 + d else 0x61 + (d - 10)
  }

  /** `v` written in exactly `width` lower-case hex digits, zero-padded on the left. */
  function HexDigits(v: nat, width: nat): (r: seq<byte>)
    requires v < Pow16(width)
    ensures |r| == width && AllLowerHex(r) && AllHex(r)
    ensures HexValue(r) == v
  {
    if width == 0 then []
    else
      var r := HexDigits(v / 16, width - 1) + [LowerHexDigit(v % 16)];
      assert r[..|r| - 1] == HexDigits(v / 16, width - 1);
      r
  }

  /** `fmt.Sprintf("%016x", d)`: 16 lower-case hex digits denoting `d`. */
  function ToHex16(d: uint64): (r: seq<byte>)
    ensures |r| == 16 && AllLowerHex(r) && AllHex(r)
    ensures HexValue(r) == d
  {
    Pow16Facts();
    HexDigits(d, 16)
  }

  /** The smallest n for which n * 16 no longer fits in a uint64. */
  const Cutoff: int := MaxUint64 / 16 + 1

  /**
   * The value of `strconv.ParseUint(s, 16, 64)`: an empty string or a byte
   * that is not a hex digit gives 0, and the first digit that carries the
   * value past 2^64 - 1 gives 2^64 - 1 at once, whatever follows it.
   */
  function ParseUint(s: seq<byte>): uint64
  {
    if s == [] then 0 else Scan(s, 0, 0)
  }

  /** ParseUint's digit loop from index `i`, with `n` the value read so far. */
  function Scan(s: seq<byte>, i: nat, n: uint64): uint64
    requires i <= |s|
    decreases |s| - i
  {
    if i == |s| then n
    else match HexDigitValue(s[i])
      case None => 0
      case Some(d) =>
        if n >= Cutoff then MaxUint64             // n * 16 overflows
        else if n * 16 + d > MaxUint64 then MaxUint64  // n * 16 + d overflows
        else Scan(s, i + 1, n * 16 + d)
  }

  /** The length of the longest prefix of `s` made of hex digits. */
  function HexPrefixLength(s: seq<byte>): (k: nat)
    ensures k <= |s| && AllHex(s[..k])
    ensures k < |s| ==> !IsHexByte(s[k])
  {
    if s == [] || !IsHexByte(s[0]) then 0
    else
      var k := 1 + HexPrefixLength(s[1..]);
      assert s[..k] == [s[0]] + s[1..][..k - 1];
      k
  }

  /**
   * ParseUint stated without its loop: look at the longest run of hex digits
   * that starts the string; if it denotes more than 2^64 - 1 the result
   * saturates, else if it is the whole string the result is its value, and
   * otherwise the string is malformed and the result is 0.
   */
  function ParseSpec(s: seq<byte>): uint64
  {
    var k := HexPrefixLength(s);
    var v := HexValue(s[..k]);
    if v > MaxUint64 then MaxUint64 else if k == |s| then v else 0
  }

  lemma PrefixWithinHexRun(s: seq<byte>, i: nat)
    requires i <= |s| && AllHex(s[..i])
    ensures i <= HexPrefixLength(s)
  {
  }

  lemma {:induction false} ScanMeaning(s: seq<byte>, i: nat, n: uint64)
    requires i <= |s| && AllHex(s[..i]) && n == HexValue(s[..i])
    ensures Scan(s, i, n) == ParseSpec(s)
    decreases |s| - i
  {
    var k := HexPrefixLength(s);
    PrefixWithinHexRun(s, i);
    if i == |s| {
      assert s[..k] == s[..i];
    } else {
      match HexDigitValue(s[i]) {
        case None =>
          assert s[..k] == s[..i];
        case Some(d) =>
          assert s[..i + 1][..i] == s[..i];
          var n' := n * 16 + d;
          assert n' == HexValue(s[..i + 1]);
          if n >= Cutoff || n' > MaxUint64 {
            PrefixWithinHexRun(s, i + 1);
            HexValuePrefixMonotone(s[..k], i + 1, k);
            assert s[..k][..i + 1] == s[..i + 1];
            assert s[..k][..k] == s[..k];
          } else {
            ScanMeaning(s, i + 1, n');
          }
      }
    }
  }

  /** The digit loop computes exactly ParseSpec. */
  lemma ParseUintMatchesSpec(s: seq<byte>)
    ensures ParseUint(s) == ParseSpec(s)
  {
    if s != [] {
      ScanMeaning(s, 0, 0);
    }
  }

  lemma AllHexPrefixLength(s: seq<byte>)
    requires AllHex(s)
    ensures HexPrefixLength(s) == |s|
  {
  }
}

=== FILE: kafka.dfy ===
/**
 * The broker configuration builder of the kafka package: a `Config` becomes
 * a client `ConfigMap` of defaults, then conditional overrides, then the
 * caller's `Extra` entries, each written in place with `SetKey`.
 */
module Kafka {

  /** A value held in a ConfigMap; `OtherValue` stands for any other Go value, by identity. */
  datatype ConfigValue = IntValue(n: int) | BoolValue(b: bool) | StrValue(s: string) | OtherValue(token: nat)

  /** The connection settings; the two message-filter callbacks are not part of this model. */
  datatype Config = Config(
    brokers: seq<string>,
    username: string,
    password: string,
    extra: map<Key, ConfigValue>,
    offset: string,
    disableAutoCommit: bool,
    resetOffset: bool,
    clientId: string)

  const DefaultClientId: string := "pinpt/go-common"

  /**
   * A ConfigMap key. The settings NewConfigMap writes have a constructor of
   * their own; every other key is `Named` by its text. `Name` and `KeyOf`
   * translate between keys and the strings they stand for.
   */
  datatype Key =
    | RequestTimeoutMs | RetryBackoffMs | ApiVersionRequest | MessageMaxBytes | BootstrapServers
    | ClientId | EnableAutoOffsetStore | SessionTimeoutMs | HeartbeatIntervalMs | EnableAutoCommit
    | SaslMechanism | SecurityProtocol | SaslUsername | SaslPassword
    | Named(name: string)

  /** The text of the settings with a constructor of their own. */
  const SettingNames: set<string> := {
    "request.timeout.ms", "retry.backoff.ms", "api.version.request", "message.max.bytes",
    "bootstrap.servers", "client.id", "enable.auto.offset.store", "session.timeout.ms",
    "heartbeat.interval.ms", "enable.auto.commit", "sasl.mechanism", "security.protocol",
    "sasl.username", "sasl.password"}

  /** The key string a key stands for. */
  function Name(k: Key): string {
    match k
    case RequestTimeoutMs => "request.timeout.ms"
    case RetryBackoffMs => "retry.backoff.ms"
    case ApiVersionRequest => "api.version.request"
    case MessageMaxBytes => "message.max.bytes"
    case BootstrapServers => "bootstrap.servers"
    case ClientId => "client.id"
    case EnableAutoOffsetStore => "enable.auto.offset.store"
    case SessionTimeoutMs => "session.timeout.ms"
    case HeartbeatIntervalMs => "heartbeat.interval.ms"
    case EnableAutoCommit => "enable.auto.commit"
    case SaslMechanism => "sasl.mechanism"
    case SecurityProtocol => "security.protocol"
    case SaslUsername => "sasl.username"
    case SaslPassword => "sasl.password"
    case Named(s) => s
  }

  /** A key is in canonical form when a `Named` key is not the text of a setting. */
  predicate Canonical(k: Key) {
    k.Named? ==> k.name !in SettingNames
  }

  /** The canonical key for a key string. */
  function KeyOf(s: string): (k: Key)
    ensures Canonical(k) && Name(k) == s
  {
    if s == "request.timeout.ms" then RequestTimeoutMs
    else if s == "retry.backoff.ms" then RetryBackoffMs
    else if s == "api.version.request" then ApiVersionRequest
    else if s == "message.max.bytes" then MessageMaxBytes
    else if s == "bootstrap.servers" then BootstrapServers
    else if s == "client.id" then ClientId
    else if s == "enable.auto.offset.store" then EnableAutoOffsetStore
    else if s == "session.timeout.ms" then SessionTimeoutMs
    else if s == "heartbeat.interval.ms" then HeartbeatIntervalMs
    else if s == "enable.auto.commit" then EnableAutoCommit
    else if s == "sasl.mechanism" then SaslMechanism
    else if s == "security.protocol" then SecurityProtocol
    else if s == "sasl.username" then SaslUsername
    else if s == "sasl.password" then SaslPassword
    else Named(s)
  }

  /** Canonical keys and key strings correspond one to one. */
  lemma KeyOfName(k: Key)
    requires Canonical(k)
    ensures KeyOf(Name(k)) == k
  {
  }

  /** Canonical keys with the same name are the same key, so each key string is one map entry. */
  lemma CanonicalNameInjective(a: Key, b: Key)
    requires Canonical(a) && Canonical(b) && Name(a) == Name(b)
    ensures a == b
  {
    KeyOfName(a);
    KeyOfName(b);
  }

  /** Go's string-keyed Extra map, with each key string replaced by its canonical key. */
  function ExtraOf(extra: map<string, ConfigValue>): (m: map<Key, ConfigValue>)
    ensures forall k :: k in m ==> Canonical(k) && Name(k) in extra && m[k] == extra[Name(k)]
    ensures forall s :: s in extra ==> KeyOf(s) in m
  {
    map s | s in extra :: KeyOf(s) := extra[s]
  }

  /** A Config whose Extra keys are all canonical, as every ExtraOf map is. */
  predicate CanonicalExtra(config: Config) {
    forall k :: k in config.extra ==> Canonical(k)
  }

  /** With canonical Extra keys, a setting is absent from Extra exactly when no Extra key has its name. */
  lemma AbsentFromExtra(config: Config, k: Key)
    requires CanonicalExtra(config) && Canonical(k)
    ensures k !in config.extra <==> forall j :: j in config.extra ==> Name(j) != Name(k)
  {
    forall j | j in config.extra && Name(j) == Name(k)
      ensures j == k
    {
      CanonicalNameInjective(j, k);
    }
  }

  /** The keys every configuration map starts with. */
  const DefaultKeys: set<Key> := {
    RequestTimeoutMs, RetryBackoffMs, ApiVersionRequest, MessageMaxBytes, BootstrapServers,
    ClientId, EnableAutoOffsetStore, SessionTimeoutMs, HeartbeatIntervalMs}

  /** The keys a non-empty username adds. */
  const SaslKeys: set<Key> := {SaslMechanism, SecurityProtocol, SaslUsername, SaslPassword}

  /** strings.Join: the parts with `sep` between each two of them. */
  function Join(parts: seq<string>, sep: string): string {
    if |parts| == 0 then ""
    else if |parts| == 1 then parts[0]
    else parts[0] + sep + Join(parts[1..], sep)
  }

  /** strings.Split(s, ","): the pieces between commas; never empty. */
  function Split(s: string): (pieces: seq<string>)
    ensures |pieces| >= 1
  {
    if |s| == 0 then [""]
    else
      var rest := Split(s[1..]);
      if s[0] == ',' then [""] + rest else [[s[0]] + rest[0]] + rest[1..]
  }

  predicate NoComma(s: string) {
    forall i :: 0 <= i < |s| ==> s[i] != ','
  }

  /** A piece without commas, before a comma, splits off as the first piece. */
  lemma {:induction false} SplitAfterPiece(a: string, t: string)
    requires NoComma(a)
    ensures Split(a + "," + t) == [a] + Split(t)
    ensures Split(a) == [a]
    decreases |a|
  {
    if |a| == 0 {
      assert a + "," + t == [','] + t;
      assert ([','] + t)[1..] == t;
    } else {
      SplitAfterPiece(a[1..], t);
      assert (a + "," + t)[1..] == a[1..] + "," + t;
      assert [a[0]] + a[1..] == a;
    }
  }

  /** Splitting the joined broker list gives the brokers back, when none contains a comma. */
  lemma {:induction false} SplitJoin(parts: seq<string>)
    requires |parts| >= 1
    requires forall i :: 0 <= i < |parts| ==> NoComma(parts[i])
    ensures Split(Join(parts, ",")) == parts
    decreases |parts|
  {
    SplitAfterPiece(parts[0], "");
    if |parts| > 1 {
      SplitJoin(parts[1..]);
      SplitAfterPiece(parts[0], Join(parts[1..], ","));
    }
  }

  /** The defaults NewConfigMap starts from. */
  function Defaults(config: Config): map<Key, ConfigValue> {
    var clientId := if config.clientId == "" then DefaultClientId else config.clientId;
    map[
      RequestTimeoutMs := IntValue(20000),
      RetryBackoffMs := IntValue(500),
      ApiVersionRequest := BoolValue(true),
      MessageMaxBytes := IntValue(1000000000),
      BootstrapServers := StrValue(Join(config.brokers, ",")),
      ClientId := StrValue(clientId),
      EnableAutoOffsetStore := BoolValue(true),
      SessionTimeoutMs := IntValue(10000),
      HeartbeatIntervalMs := IntValue(1000)]
  }

  /** Auto-commit switched off: the commit flag as the string "false", offsets not stored automatically. */
  function AutoCommitOff(m: map<Key, ConfigValue>): map<Key, ConfigValue> {
    m[EnableAutoCommit := StrValue("false")][EnableAutoOffsetStore := BoolValue(false)]
  }

  /** SASL over SSL with a plain username and password. */
  function WithCredentials(m: map<Key, ConfigValue>, username: string, password: string): map<Key, ConfigValue> {
    m[SaslMechanism := StrValue("PLAIN")][SecurityProtocol := StrValue("SASL_SSL")]
      [SaslUsername := StrValue(username)][SaslPassword := StrValue(password)]
  }

  /** The defaults with the auto-commit and credential overrides applied. */
  function Overridden(config: Config): map<Key, ConfigValue> {
    var c := Defaults(config);
    var c := if config.disableAutoCommit then AutoCommitOff(c) else c;
    if config.username != "" then WithCredentials(c, config.username, config.password) else c
  }

  /** The map NewConfigMap builds: the overridden defaults, with every Extra entry written over them. */
  function ConfigFor(config: Config): map<Key, ConfigValue> {
    Overridden(config) + config.extra
  }

  /** The entries of `m` under `keys`. */
  function Restrict(m: map<Key, ConfigValue>, keys: set<Key>): (r: map<Key, ConfigValue>)
    requires keys <= m.Keys
    ensures r.Keys == keys && forall k :: k in keys ==> r[k] == m[k]
  {
    map k | k in keys :: m[k]
  }

  /** Writing one more entry of `m` over `base` extends the restriction by that key. */
  lemma RestrictStep(base: map<Key, ConfigValue>, m: map<Key, ConfigValue>, done: set<Key>, key: Key)
    requires done <= m.Keys && key in m
    ensures (base + Restrict(m, done))[key := m[key]] == base + Restrict(m, done + {key})
  {
  }

  /** The restriction to all of `m`'s keys is `m`. */
  lemma RestrictAll(m: map<Key, ConfigValue>)
    ensures Restrict(m, m.Keys) == m
  {
  }

  /** A ck.ConfigMap: the settings the client library reads, keyed by `Key`. */
  class ConfigMap {
    var entries: map<Key, ConfigValue>

    constructor (initial: map<Key, ConfigValue>)
      ensures entries == initial
    {
      entries := initial;
    }

    /** Stores `value` under `key`, replacing any earlier value. */
    method SetKey(key: Key, value: ConfigValue)
      modifies this
      ensures entries == old(entries)[key := value]
    {
      entries := entries[key := value];
    }

    /**
     * SetKey for every entry of `extra`, in whatever order the map yields
     * them; the result is the same for every order.
     */
    method SetEntries(extra: map<Key, ConfigValue>)
      modifies this
      ensures entries == old(entries) + extra
    {
      ghost var base := entries;
      var pending := extra.Keys;
      while pending != {}
        invariant pending <= extra.Keys
        invariant entries == base + Restrict(extra, extra.Keys - pending)
        decreases |pending|
      {
        var key :| key in pending;
        RestrictStep(base, extra, extra.Keys - pending, key);
        SetKey(key, extra[key]);
        assert extra.Keys - pending + {key} == extra.Keys - (pending - {key});
        pending := pending - {key};
      }
      assert extra.Keys - pending == extra.Keys;
      RestrictAll(extra);
    }
  }

  /** NewConfigMap: the defaults, then the auto-commit and credential overrides, then the Extra entries. */
  method NewConfigMap(config: Config) returns (c: ConfigMap)
    requires CanonicalExtra(config)
    ensures fresh(c)
    ensures c.entries == ConfigFor(config)
  {
    c := new ConfigMap(Defaults(config));
    if config.disableAutoCommit {
      c.SetKey(EnableAutoCommit, StrValue("false"));
      c.SetKey(EnableAutoOffsetStore, BoolValue(false));
      assert c.entries == AutoCommitOff(Defaults(config));
    }
    if config.username != "" {
      ghost var before := c.entries;
      c.SetKey(SaslMechanism, StrValue("PLAIN"));
      c.SetKey(SecurityProtocol, StrValue("SASL_SSL"));
      c.SetKey(SaslUsername, StrValue(config.username));
      c.SetKey(SaslPassword, StrValue(config.password));
      assert c.entries == WithCredentials(before, config.username, config.password);
    }
    assert c.entries == Overridden(config);
    c.SetEntries(config.extra);
  }

  /** client.id is the configured ClientID, or "pinpt/go-common" when that is empty. */
  lemma ClientIdOrDefault(config: Config)
    requires CanonicalExtra(config)
    requires ClientId !in config.extra
    ensures ClientId in ConfigFor(config)
    ensures config.clientId != "" ==> ConfigFor(config)[ClientId] == StrValue(config.clientId)
    ensures config.clientId == "" ==> ConfigFor(config)[ClientId] == StrValue(DefaultClientId)
  {
  }

  /** bootstrap.servers is the brokers joined with commas. */
  lemma BootstrapServersJoined(config: Config)
    requires CanonicalExtra(config)
    requires BootstrapServers !in config.extra
    ensures BootstrapServers in ConfigFor(config)
    ensures ConfigFor(config)[BootstrapServers] == StrValue(Join(config.brokers, ","))
  {
  }

  /** A key that neither an override nor an Extra entry writes keeps its default, or stays absent. */
  lemma KeepsDefault(config: Config, k: Key)
    requires CanonicalExtra(config)
    requires !k.EnableAutoCommit? && !k.EnableAutoOffsetStore?
    requires !k.SaslMechanism? && !k.SecurityProtocol? && !k.SaslUsername? && !k.SaslPassword?
    requires k !in config.extra
    ensures k in ConfigFor(config) <==> k in Defaults(config)
    ensures k in Defaults(config) ==> ConfigFor(config)[k] == Defaults(config)[k]
  {
    var d := Defaults(config);
    var c := if config.disableAutoCommit then AutoCommitOff(d) else d;
    AutoCommitOffKeeps(d, k);
    WithCredentialsKeeps(c, config.username, config.password, k);
    assert Overridden(config) == if config.username != "" then WithCredentials(c, config.username, config.password) else c;
  }

  lemma AutoCommitOffKeeps(m: map<Key, ConfigValue>, k: Key)
    requires !k.EnableAutoCommit? && !k.EnableAutoOffsetStore?
    ensures k in AutoCommitOff(m) <==> k in m
    ensures k in m ==> AutoCommitOff(m)[k] == m[k]
  {
  }

  lemma WithCredentialsKeeps(m: map<Key, ConfigValue>, username: string, password: string, k: Key)
    requires !k.SaslMechanism? && !k.SecurityProtocol? && !k.SaslUsername? && !k.SaslPassword?
    ensures k in WithCredentials(m, username, password) <==> k in m
    ensures k in m ==> WithCredentials(m, username, password)[k] == m[k]
  {
  }

  /** The default settings that nothing but Extra can change. */
  const FixedKeys: set<Key> := {
    RequestTimeoutMs, RetryBackoffMs, ApiVersionRequest, MessageMaxBytes, SessionTimeoutMs, HeartbeatIntervalMs}

  /** The fixed defaults hold whenever Extra leaves them alone. */
  lemma FixedDefaults(config: Config)
    requires CanonicalExtra(config)
    requires FixedKeys !! config.extra.Keys
    ensures FixedKeys <= ConfigFor(config).Keys
    ensures ConfigFor(config)[RequestTimeoutMs] == IntValue(20000)
    ensures ConfigFor(config)[RetryBackoffMs] == IntValue(500)
    ensures ConfigFor(config)[ApiVersionRequest] == BoolValue(true)
    ensures ConfigFor(config)[MessageMaxBytes] == IntValue(1000000000)
    ensures ConfigFor(config)[SessionTimeoutMs] == IntValue(10000)
    ensures ConfigFor(config)[HeartbeatIntervalMs] == IntValue(1000)
  {
    KeepsDefault(config, RequestTimeoutMs);
    KeepsDefault(config, RetryBackoffMs);
    KeepsDefault(config, ApiVersionRequest);
    KeepsDefault(config, MessageMaxBytes);
    KeepsDefault(config, SessionTimeoutMs);
    KeepsDefault(config, HeartbeatIntervalMs);
  }

  /** Auto-commit is switched off, and offsets are not stored automatically, exactly when asked for. */
  lemma AutoCommit(config: Config)
    requires CanonicalExtra(config)
    requires EnableAutoCommit !in config.extra && EnableAutoOffsetStore !in config.extra
    ensures EnableAutoCommit in ConfigFor(config) <==> config.disableAutoCommit
    ensures config.disableAutoCommit ==> ConfigFor(config)[EnableAutoCommit] == StrValue("false")
    ensures EnableAutoOffsetStore in ConfigFor(config)
    ensures ConfigFor(config)[EnableAutoOffsetStore] == BoolValue(!config.disableAutoCommit)
  {
  }

  /** SASL over SSL with the given credentials is configured exactly when the username is non-empty. */
  lemma Credentials(config: Config)
    requires CanonicalExtra(config)
    requires SaslKeys !! config.extra.Keys
    ensures SaslKeys <= ConfigFor(config).Keys <==> config.username != ""
    ensures SaslKeys !! ConfigFor(config).Keys <==> config.username == ""
    ensures config.username != "" ==>
      && ConfigFor(config)[SaslMechanism] == StrValue("PLAIN")
      && ConfigFor(config)[SecurityProtocol] == StrValue("SASL_SSL")
      && ConfigFor(config)[SaslUsername] == StrValue(config.username)
      && ConfigFor(config)[SaslPassword] == StrValue(config.password)
  {
  }

  /** Every Extra entry ends up in the map with its own value, over any default or override. */
  lemma ExtraWins(config: Config, key: Key)
    requires key in config.extra
    ensures key in ConfigFor(config) && ConfigFor(config)[key] == config.extra[key]
  {
  }

  /** The map holds the defaults, the overrides that apply and the Extra keys, and nothing else. */
  lemma ConfigKeys(config: Config)
    requires CanonicalExtra(config)
    ensures ConfigFor(config).Keys ==
      DefaultKeys
      + (if config.disableAutoCommit then {EnableAutoCommit} else {})
      + (if config.username != "" then SaslKeys else {})
      + config.extra.Keys
  {
    OverriddenKeys(config);
  }

  /** The defaults hold exactly the default keys. */
  lemma DefaultsKeys(config: Config)
    ensures Defaults(config).Keys == DefaultKeys
  {
  }

  /** The overrides add the auto-commit flag and the credentials, when they apply. */
  lemma OverriddenKeys(config: Config)
    ensures Overridden(config).Keys ==
      DefaultKeys
      + (if config.disableAutoCommit then {EnableAutoCommit} else {})
      + (if config.username != "" then SaslKeys else {})
  {
    DefaultsKeys(config);
  }
}

=== FILE: wrappers.dfy ===
/** Optional values: Go's nil pointers and absent results. */
module Wrappers {

  datatype Option<+T> = None | Some(value: T)
}
